=== FILE: README.md ===
# PDF Utility Tool — a Dafny model of its document-assembly core

The tool has three operations on PDF files and a text menu in front of them:

- **merge** (`merge_pdfs`): append the pages of every listed file, in list
  order, into one new document;
- **split** (`split_pdf`): write each page of a file to its own single-page
  document `page_<n>.pdf` in an output directory, `n` counting from 1;
- **protect** (`password_protect`): copy the pages of a file into a new
  document encrypted with a password;
- **menu** (`main`): the choice `1`, `2` or `3` picks the operation. Merge
  reads its path list as one comma-separated line and strips the whitespace
  around each entry.

The model treats the PDF codec as opaque. A page is a value of a type
parameter `P` that is never inspected. A document (`Assembly.Document`) is a
page sequence plus an optional password. Reading a file means looking it up
in a `Store` (a map from path to page sequence; a path that cannot be opened
or decoded is absent). Writing a file is recorded as a `Write(path, doc)`. The
platform's `os.path.join` is a function parameter `join`.

Modules and files:

| file | module | contents |
|---|---|---|
| results.dfy | `Results` | `Option`, `Result` |
| decimal.dfy | `Decimal` | decimal rendering of naturals (`f"{n}"`) and its inverse |
| text.dfy | `Text` | `str.strip()`, `str.split(sep)`, `sep.join(...)` |
| assembly.dfy | `Assembly` | documents, merge, split, protect, page file names |
| engine.dfy | `Engine` | the operations on a store of files, with their read errors |
| menu.dfy | `Menu` | choice dispatch, prompt answers, path-list parsing, one run of `main` |

Three facts about the code that the model keeps:

- The merge and protect output names are used exactly as typed. `merge_pdfs`
  and `password_protect` append no extension (PDFUtilityTool.py:9, 31).
- `password_protect` accepts the empty password (PDFUtilityTool.py:30). A PDF
  reader that is given no password tries the empty one, so such a file opens for
  anyone (`Assembly.EmptyPasswordProtectsNothing`).
- `merge_pdfs([])` writes an empty document (`Concat([]) == []`). The menu never
  passes an empty list, because `Menu.ParsePaths` always returns
  `Count(line, ',') + 1 >= 1` entries.

## Model

| member | source | states |
|---|---|---|
| `Assembly.ConcatLength` | PDFUtilityTool.py:5-10 | the merged page count is the sum of the source page counts |
| `Assembly.Merge` | PDFUtilityTool.py:5-10 | the merged document is unencrypted, has as many pages as all sources together, and a single source merges to exactly its own pages |
| `Assembly.MergePlacesPages` | PDFUtilityTool.py:7-8 | page j of source k sits at position (pages of sources before k) + j of the merged document, so merge keeps list order and page order and drops nothing |
| `Assembly.ConcatAppend` | PDFUtilityTool.py:7-8 | merging the list a + b is the pages of a's merge followed by b's |
| `Assembly.MergeAssociates` | PDFUtilityTool.py:7-8 | merging two merged documents equals merging all their sources at once |
| `Assembly.Split` | PDFUtilityTool.py:16-19 | split yields one piece per page, in page order; piece i holds only page i, unencrypted, and is named `PageName(i)` |
| `Assembly.MergeSplit` | PDFUtilityTool.py:16-18 | merging the split pieces in order gives back the original pages (split loses and reorders nothing) |
| `Assembly.PageNameInjective` | PDFUtilityTool.py:19 | `page_<i+1>.pdf` names of distinct indices differ |
| `Assembly.SplitNamesDistinct` | PDFUtilityTool.py:16-19 | no two pieces of one split share a name |
| `Assembly.Open` | PDFUtilityTool.py:30 | an encrypted document shows its pages only to a reader who supplies its password (compared whole; see "## Left out"), where supplying none counts as supplying the empty one; an unencrypted one shows them to anyone |
| `Assembly.ProtectNeedsPassword` | PDFUtilityTool.py:27-30 | the protected document shows exactly the source pages, in order, with the password; when the password is not empty, it shows nothing to a reader supplying a different password (compared whole; see "## Left out") or none |
| `Assembly.EmptyPasswordProtectsNothing` | PDFUtilityTool.py:30 | a document protected with the empty password opens without any password |
| `Assembly.UnprotectedOutputsOpen` | PDFUtilityTool.py:5-22 | merge and split outputs open without any password |
| `Decimal.FromNat` | PDFUtilityTool.py:19 | the page number is rendered as a canonical numeral: digits only, no leading zero, "0" only for zero |
| `Decimal.ToNatFromNat` | PDFUtilityTool.py:19 | reading the rendered number back gives the number |
| `Decimal.FromNatToNat` | PDFUtilityTool.py:19 | every canonical numeral is the rendering of its own value |
| `Decimal.FromNatInjective` | PDFUtilityTool.py:19 | distinct numbers render to distinct numerals |
| `Text.TrimStart` | PDFUtilityTool.py:45 | the result is the suffix of the input after its whitespace prefix, and does not start with whitespace |
| `Text.TrimEnd` | PDFUtilityTool.py:45 | the result is the prefix of the input before its whitespace suffix, and does not end with whitespace |
| `Text.Strip` | PDFUtilityTool.py:45 | the result neither starts nor ends with whitespace, and the input is the result with only whitespace before and after it |
| `Text.StripUnique` | PDFUtilityTool.py:45 | any split of the input into whitespace, a trimmed middle and whitespace has the strip as its middle |
| `Text.StripAddsNothing` | PDFUtilityTool.py:45 | a character absent from the input is absent from its strip |
| `Text.SplitOn` | PDFUtilityTool.py:43 | splitting at a separator gives (number of separators) + 1 fields, none containing the separator |
| `Text.JoinSplitOn` | PDFUtilityTool.py:43 | re-joining the fields with the separator gives back the line |
| `Text.SplitOnJoin` | PDFUtilityTool.py:43 | splitting the join of separator-free fields gives back the fields |
| `Engine.FirstUnreadable` | PDFUtilityTool.py:7-8 | the index found is the first path that cannot be read: all paths before it can be |
| `Engine.ReadAll` | PDFUtilityTool.py:7-8 | reading succeeds exactly when every path is readable, and yields their pages in list order; otherwise it fails naming the first unreadable path |
| `Engine.MergeFiles` | PDFUtilityTool.py:5-10 | merge writes one file, the output as typed, holding the merge of all sources, exactly when every source is readable; otherwise it fails, naming the first source that cannot be opened and parsed, before `output` is opened |
| `Engine.SplitFile` | PDFUtilityTool.py:13-22 | split fails exactly when the source cannot be opened and decoded; otherwise write i goes to `join(dir, PageName(i))` and holds only page i |
| `Engine.ProtectFile` | PDFUtilityTool.py:24-33 | protect fails, writing nothing, exactly when the source is unreadable; otherwise it writes one file, the output as typed, holding the source pages encrypted with the password, the empty one included |
| `Engine.SplitFileTargetsDistinct` | PDFUtilityTool.py:19-21 | when `join` keeps distinct relative names (not empty, not starting with `/`) in the directory apart, no two split writes target the same file |
| `Menu.Choose` | PDFUtilityTool.py:42-59 | "1", "2" and "3" select merge, split and protect, each exactly for that string, and every other string selects nothing |
| `Menu.ParsePaths` | PDFUtilityTool.py:43-45 | the path list has (number of commas) + 1 entries, entry k is the k-th comma-separated field stripped, and no entry has surrounding whitespace or a comma |
| `Menu.ParsePathsJoin` | PDFUtilityTool.py:43-45 | comma-free paths typed joined by commas, with any whitespace around each, are read back as exactly those paths |
| `Menu.ReadRequest` | PDFUtilityTool.py:43-55 | each operation consumes its prompts' answers in order (2, 2 and 3 of them), fails with end of input when there are fewer, and only the merge path list is processed |
| `Menu.RunMenu` | PDFUtilityTool.py:35-59 | a run ends with no operation exactly when the first line is an invalid choice, and with end of input exactly when there is no line at all or a valid choice has too few answers |
| `Menu.RunMenuMerge` | PDFUtilityTool.py:42-45 | choosing merge writes the merge of the parsed paths to the typed output name, or fails at the first unreadable path |
| `Menu.RunMenuSplit` | PDFUtilityTool.py:47-50 | choosing split writes page i of the source to `join(dir, PageName(i))`, or fails on an unreadable source |
| `Menu.RunMenuProtect` | PDFUtilityTool.py:52-56 | choosing protect writes the source pages encrypted with the typed password, or fails on an unreadable source |
| `Menu.ParsePathsExample` | PDFUtilityTool.py:43-45 | the line "a.pdf, b.pdf" is read as the paths "a.pdf" and "b.pdf" |
| `Menu.MergeExamplePages` | PDFUtilityTool.py:5-10 | sources of 2 and 3 pages merge into their 5 pages in order |
| `Menu.MergeExample` | PDFUtilityTool.py:42-45 | merging "a.pdf, b.pdf" (2 and 3 pages) into "out" writes one 5-page document to "out", with no extension added |
| `Menu.SplitExample` | PDFUtilityTool.py:47-50 | a 3-page document splits into `page_1.pdf`, `page_2.pdf` and `page_3.pdf`, one page each |

## Left out

- The PDF binary format and the PyPDF2 classes (`PdfMerger`, `PdfReader`, `PdfWriter`). They are a foreign library. Pages are an opaque type parameter, and decoding is a lookup in the store.
- The encryption algorithm. Encryption is the `password` tag of a document, and `Assembly.Open` gives that tag its meaning.
- Assembly.Open: compares the supplied password with the document's whole password. The standard security handler that `writer.encrypt` uses by default (PDFUtilityTool.py:30) pads or truncates a password to its first 32 characters before deriving the key. So any two passwords that agree on their first 32 characters open the same file. The truncation works on the encoded bytes of the password, not on Dafny characters, so modelling it here would be inexact.
- Assembly.ProtectNeedsPassword: "shows nothing to a different password" holds in the model only because `Assembly.Open` compares whole passwords. For a password longer than 32 characters, the program's output also opens for every other password with the same first 32 characters.
- Opening, reading and writing files, and every `print`. These are I/O. A read is a store lookup, and a successful operation returns its writes.
- Engine.MergeFiles: `merger.append` (PDFUtilityTool.py:8) only opens and parses each source. The pages are copied out later, inside `merger.write` (PDFUtilityTool.py:10), after `open(output, 'wb')` (PDFUtilityTool.py:9) has created or truncated `output`. A source that parses but whose page cannot be resolved therefore leaves an empty `output`, destroying any file that was there, before the merge raises. The model treats such a source as unreadable and records no write. Decoding page by page is codec behaviour, and a store that holds whole documents cannot express it.
- Engine.SplitFile: `split_pdf` reads each page inside its loop (PDFUtilityTool.py:18), after the files for earlier pages are written. A source whose later page fails to decode therefore leaves the earlier `page_<n>.pdf` files on disk before it raises. The model treats such a source as unreadable and records no writes. Decoding page by page is codec behaviour, and a store that holds whole documents cannot express it.
- Failures while writing (a missing output directory, a full disk) and the partial output they leave. The code never inspects filesystem state, so every write succeeds in the model.
- `os.path.join`. It is a foreign call, passed in as the parameter `join`.
- `pathlib.Path` applied to each merge entry. Its normalisation (an empty entry becomes `.`, repeated separators collapse) is a foreign call. The model looks up the stripped string itself.
- `input()`. The lines the user types (the choice first, then the answers to the prompts) are a parameter. Running out of input, before the choice or before any answer, is `EndOfInput`.
- Exceptions other than an unreadable source or the end of input. One example is a source that is itself encrypted.
- An output path equal to an input path. The model cannot tell whether the codec has finished reading the input before the output is truncated.

=== FILE: assembly.dfy ===
/** The page-level core of the tool: a document is its page sequence plus the
    password it is encrypted with, and merge, split and protect only copy and
    regroup pages. Pages are values of a type parameter P that the engine never
    looks inside; the PDF codec owns them. */
module Assembly {
  import opened Results
  import Decimal

  /** A document: its pages in order, and the password it is encrypted with
      (None for a document written without encryption). */
  datatype Document<P> = Document(pages: seq<P>, password: Option<string>)

  /** A document written without encryption. */
  function Plain<P>(pages: seq<P>): Document<P> {
    Document(pages, None)
  }

  /** What the codec lets a reader see of `doc` when it supplies `given` as the
      password (None: no password supplied). An unencrypted document opens for
      anyone; an encrypted one only for its own password, compared whole (the
      codec compares only its first 32 characters, which this model does not
      follow). A reader that is given no password tries the empty one, as PDF
      readers do, so a document encrypted with "" opens for anyone too. */
  function Open<P>(doc: Document<P>, given: Option<string>): (seen: Option<seq<P>>)
    ensures seen.Some? ==> seen.value == doc.pages
    ensures doc.password.None? ==> seen.Some?
    ensures doc.password.Some? && given.Some? ==> (seen.Some? <==> given == doc.password)
    ensures doc.password.Some? && given.None? ==> (seen.Some? <==> doc.password == Some(""))
  {
    var tried := if given.None? then "" else given.value;
    if doc.password.None? || doc.password == Some(tried) then Some(doc.pages) else None
  }

  // ---------------------------------------------------------------- merge

  /** The number of pages in all of `sources` together. */
  function TotalPages<P>(sources: seq<seq<P>>): nat
    decreases |sources|
  {
    if |sources| == 0 then 0
    else TotalPages(sources[..|sources| - 1]) + |sources[|sources| - 1]|
  }

  /** The pages of every source, one source appended after another in list order,
      as the merger does for each `append`. */
  function Concat<P>(sources: seq<seq<P>>): seq<P>
    decreases |sources|
  {
    if |sources| == 0 then []
    else Concat(sources[..|sources| - 1]) + sources[|sources| - 1]
  }

  lemma {:induction false} ConcatLength<P>(sources: seq<seq<P>>)
    ensures |Concat(sources)| == TotalPages(sources)
    decreases |sources|
  {
    if |sources| > 0 {
      ConcatLength(sources[..|sources| - 1]);
    }
  }

  /** Merging two lists of sources one after the other is merging their
      concatenation. */
  lemma {:induction false} ConcatAppend<P>(a: seq<seq<P>>, b: seq<seq<P>>)
    ensures Concat(a + b) == Concat(a) + Concat(b)
    decreases |b|
  {
    if |b| == 0 {
      assert a + b == a;
    } else {
      var b' := b[..|b| - 1];
      assert (a + b)[..|a + b| - 1] == a + b';
      assert (a + b)[|a + b| - 1] == b[|b| - 1];
      ConcatAppend(a, b');
    }
  }

  /** The merged document: all pages of all sources in order, unencrypted. */
  function Merge<P>(sources: seq<seq<P>>): (merged: Document<P>)
    ensures merged.password == None
    ensures |merged.pages| == TotalPages(sources)
    ensures |sources| == 1 ==> merged.pages == sources[0]
  {
    ConcatLength(sources);
    assert |sources| == 1 ==> sources[..0] == [];
    Plain(Concat(sources))
  }

  /** Page j of source k lands in the merged document right after the pages of
      the sources before k: merging neither drops, reorders nor duplicates pages. */
  lemma MergePlacesPages<P>(sources: seq<seq<P>>, k: nat, j: nat)
    requires k < |sources| && j < |sources[k]|
    ensures TotalPages(sources[..k]) + j < |Merge(sources).pages|
    ensures Merge(sources).pages[TotalPages(sources[..k]) + j] == sources[k][j]
  {
    var before, after := sources[..k], sources[k + 1..];
    assert sources == before + [sources[k]] + after;
    ConcatAppend(before + [sources[k]], after);
    ConcatAppend(before, [sources[k]]);
    assert [sources[k]][..0] == [];
    ConcatLength(before);
  }

  /** Merging the merged documents of two lists gives the merge of both lists. */
  lemma MergeAssociates<P>(a: seq<seq<P>>, b: seq<seq<P>>)
    ensures Merge([Merge(a).pages, Merge(b).pages]) == Merge(a + b)
  {
    ConcatAppend(a, b);
    ConcatAppend([Merge(a).pages], [Merge(b).pages]);
    assert [Merge(a).pages, Merge(b).pages] == [Merge(a).pages] + [Merge(b).pages];
  }

  // ---------------------------------------------------------------- split

  /** The file name split gives the page at 0-based index i: "page_", the 1-based
      page number in decimal without padding, then ".pdf". */
  function PageName(i: nat): string {
    "page_" + Decimal.FromNat(i + 1) + ".pdf"
  }

  /** Distinct pages get distinct file names, so no split output overwrites another. */
  lemma PageNameInjective(i: nat, j: nat)
    ensures PageName(i) == PageName(j) ==> i == j
  {
    if PageName(i) == PageName(j) {
      var a, b := Decimal.FromNat(i + 1), Decimal.FromNat(j + 1);
      assert |a| == |b|;
      assert a == PageName(i)[5..5 + |a|];
      assert b == PageName(j)[5..5 + |b|];
      Decimal.FromNatInjective(i + 1, j + 1);
    }
  }

  /** One output of split: the file name and the single-page document it holds. */
  datatype Piece<P> = Piece(name: string, doc: Document<P>)

  /** Split, one piece per page in page order, as the loop over
      `range(len(reader.pages))` writes them. */
  function Split<P>(pages: seq<P>): (pieces: seq<Piece<P>>)
    ensures |pieces| == |pages|
    ensures forall i :: 0 <= i < |pieces| ==>
              pieces[i].name == PageName(i) && pieces[i].doc == Plain([pages[i]])
    decreases |pages|
  {
    if |pages| == 0 then []
    else
      var n := |pages| - 1;
      Split(pages[..n]) + [Piece(PageName(n), Plain([pages[n]]))]
  }

  /** The pages of the split pieces, in piece order. */
  function PiecePages<P>(pieces: seq<Piece<P>>): seq<seq<P>> {
    seq(|pieces|, i requires 0 <= i < |pieces| => pieces[i].doc.pages)
  }

  /** Merging the pieces of a split in order gives back the original pages. */
  lemma {:induction false} MergeSplit<P>(pages: seq<P>)
    ensures Merge(PiecePages(Split(pages))).pages == pages
    decreases |pages|
  {
    if |pages| > 0 {
      var n := |pages| - 1;
      var pieces := Split(pages);
      assert pieces[..n] == Split(pages[..n]);
      var sources := PiecePages(pieces);
      assert sources[..n] == PiecePages(pieces[..n]);
      MergeSplit(pages[..n]);
      assert sources[n] == [pages[n]];
      assert pages == pages[..n] + [pages[n]];
    }
  }

  /** No two split pieces share a name. */
  lemma SplitNamesDistinct<P>(pages: seq<P>, i: nat, j: nat)
    requires i < |pages| && j < |pages| && i != j
    ensures Split(pages)[i].name != Split(pages)[j].name
  {
    PageNameInjective(i, j);
  }

  // ---------------------------------------------------------------- protect

  /** Copy the pages in order into a new document and encrypt it with `password`. */
  function Protect<P>(pages: seq<P>, password: string): Document<P> {
    Document(pages, Some(password))
  }

  /** The protected document shows exactly the source pages, in order, to a reader
      who supplies the password; when the password is not empty, it shows nothing
      to anyone supplying a different password, compared whole. */
  lemma ProtectNeedsPassword<P>(pages: seq<P>, password: string, given: Option<string>)
    ensures Open(Protect(pages, password), Some(password)) == Some(pages)
    ensures password != "" ==>
              Open(Protect(pages, password), given) ==
                (if given == Some(password) then Some(pages) else None)
  {
  }

  /** Protecting with the empty password, which `password_protect` accepts, gives
      a document that opens without any password. */
  lemma EmptyPasswordProtectsNothing<P>(pages: seq<P>)
    ensures Open(Protect(pages, ""), None) == Some(pages)
  {
  }

  /** Merged and split outputs open without a password. */
  lemma UnprotectedOutputsOpen<P>(sources: seq<seq<P>>, pages: seq<P>, i: nat, given: Option<string>)
    requires i < |pages|
    ensures Open(Merge(sources), given) == Some(Merge(sources).pages)
    ensures Open(Split(pages)[i].doc, given) == Some([pages[i]])
  {
  }
}

=== FILE: decimal.dfy ===
/** Rendering of natural numbers in decimal, as Python's f-string `{n}` does for an
    `int` n >= 0, together with its inverse. */
module Decimal {

  predicate IsDigit(c: char) {
    '0' <= c <= '9'
  }

  predicate IsDigits(s: string) {
    forall k :: 0 <= k < |s| ==> IsDigit(s[k])
  }

  /** A canonical decimal numeral: at least one digit, and no leading zero unless
      the numeral is "0" itself. */
  predicate IsCanonical(s: string) {
    |s| >= 1 && IsDigits(s) && (s[0] == '0' ==> |s| == 1)
  }

  function DigitValue(c: char): (d: nat)
    requires IsDigit(c)
    ensures d < 10
  {
    c as int - '0' as int
  }

  function DigitChar(d: nat): (c: char)
    requires d < 10
    ensures IsDigit(c)
    ensures DigitValue(c) == d
  {
    ('0' as int + d) as char
  }

  /** The decimal numeral of n: most significant digit first, no padding. */
  function FromNat(n: nat): (s: string)
    ensures IsCanonical(s)
    ensures s[0] == '0' <==> n == 0
    decreases n
  {
    if n < 10 then [DigitChar(n)] else FromNat(n / 10) + [DigitChar(n % 10)]
  }

  /** The value of a string of decimal digits (the empty string reads as 0). */
  function ToNat(s: string): nat
    requires IsDigits(s)
    decreases |s|
  {
    if |s| == 0 then 0 else 10 * ToNat(s[..|s| - 1]) + DigitValue(s[|s| - 1])
  }

  /** Reading back a rendered number gives the number. */
  lemma {:induction false} ToNatFromNat(n: nat)
    ensures ToNat(FromNat(n)) == n
    decreases n
  {
    if n >= 10 {
      var s := FromNat(n);
      assert s[..|s| - 1] == FromNat(n / 10);
      ToNatFromNat(n / 10);
    }
  }

  /** A numeral of two or more digits that does not start with '0' is at least 10. */
  lemma {:induction false} ToNatLowerBound(s: string)
    requires IsCanonical(s) && |s| >= 2
    ensures ToNat(s) >= 10
    decreases |s|
  {
    var p := s[..|s| - 1];
    assert p[0] == s[0];
    if |p| >= 2 {
      ToNatLowerBound(p);
    } else {
      assert ToNat(p) == DigitValue(p[0]);
    }
  }

  /** Rendering the value of a canonical numeral gives the numeral back: FromNat is
      a bijection between the naturals and the canonical numerals. */
  lemma {:induction false} FromNatToNat(s: string)
    requires IsCanonical(s)
    ensures FromNat(ToNat(s)) == s
    decreases |s|
  {
    if |s| == 1 {
      assert s[..0] == [];
    } else {
      var p := s[..|s| - 1];
      assert p[0] == s[0];
      ToNatLowerBound(s);
      var n := ToNat(s);
      assert n / 10 == ToNat(p) && n % 10 == DigitValue(s[|s| - 1]);
      FromNatToNat(p);
      assert s == p + [s[|s| - 1]];
    }
  }

  /** Distinct numbers have distinct numerals. */
  lemma FromNatInjective(m: nat, n: nat)
    ensures FromNat(m) == FromNat(n) ==> m == n
  {
    ToNatFromNat(m);
    ToNatFromNat(n);
  }
}

=== FILE: engine.dfy ===
/** The three operations as the tool runs them on files. Reading a path (opening
    it and decoding it with the PDF codec) is a lookup in a Store; writing is
    recorded as a Write. A source that cannot be opened or parsed stops an
    operation before it opens any output, so such a failure has written nothing. */
module Engine {
  import opened Results
  import opened Assembly

  /** The page sequence of every path that can be opened and decoded. A path that
      is absent cannot be read or does not hold a valid document. */
  type Store<P> = map<string, seq<P>>

  /** Why an operation stopped. */
  datatype Error =
    | Unreadable(path: string)  // opening or decoding a source failed
    | EndOfInput                // the user's input ended before a prompt was answered

  /** One output file: where it goes and the document written there. */
  datatype Write<P> = Write(path: string, doc: Document<P>)

  predicate AllReadable<P>(paths: seq<string>, store: Store<P>) {
    forall k :: 0 <= k < |paths| ==> paths[k] in store
  }

  /** The page sequences of `paths`, in list order. */
  function Sources<P>(paths: seq<string>, store: Store<P>): (sources: seq<seq<P>>)
    requires AllReadable(paths, store)
    ensures |sources| == |paths|
    ensures forall k :: 0 <= k < |paths| ==> sources[k] == store[paths[k]]
  {
    seq(|paths|, k requires 0 <= k < |paths| => store[paths[k]])
  }

  /** The index of the first path that cannot be read, or |paths| if every path
      can be. */
  function FirstUnreadable<P>(paths: seq<string>, store: Store<P>): (k: nat)
    ensures k <= |paths|
    ensures AllReadable(paths[..k], store)
    ensures k < |paths| ==> paths[k] !in store
    decreases |paths|
  {
    if |paths| == 0 || paths[0] !in store then 0
    else
      var k := FirstUnreadable(paths[1..], store);
      assert paths[..k + 1] == [paths[0]] + paths[1..][..k];
      k + 1
  }

  /** Read every path in order, as the merger appends them one by one; the first
      path that cannot be read stops the reading. */
  function ReadAll<P>(paths: seq<string>, store: Store<P>): (r: Result<seq<seq<P>>, Error>)
    ensures r.Ok? <==> AllReadable(paths, store)
    ensures r.Ok? ==> r.value == Sources(paths, store)
    ensures r.Err? ==> var k := FirstUnreadable(paths, store);
                       k < |paths| && r.error == Unreadable(paths[k])
  {
    var k := FirstUnreadable(paths, store);
    if k < |paths| then Err(Unreadable(paths[k]))
    else
      assert paths[..k] == paths;
      Ok(Sources(paths, store))
  }

  /** `merge_pdfs`: merge the sources in order into one document written to
      `output`, exactly as given. */
  function MergeFiles<P>(paths: seq<string>, output: string, store: Store<P>): (r: Result<seq<Write<P>>, Error>)
    ensures r.Ok? <==> AllReadable(paths, store)
    ensures r.Ok? ==> r.value == [Write(output, Merge(Sources(paths, store)))]
    ensures r.Err? ==> var k := FirstUnreadable(paths, store);
                       k < |paths| && r.error == Unreadable(paths[k])
  {
    match ReadAll(paths, store)
    case Err(e) => Err(e)
    case Ok(sources) => Ok([Write(output, Merge(sources))])
  }

  /** `split_pdf`: one single-page document per source page, written to
      `join(outputDir, PageName(i))` in page order. `join` is the platform's
      `os.path.join`. */
  function SplitFile<P>(input: string, outputDir: string, join: (string, string) -> string, store: Store<P>)
    : (r: Result<seq<Write<P>>, Error>)
    ensures r.Err? <==> input !in store
    ensures r.Err? ==> r.error == Unreadable(input)
    ensures r.Ok? ==> |r.value| == |store[input]|
    ensures r.Ok? ==> forall i :: 0 <= i < |r.value| ==>
              r.value[i] == Write(join(outputDir, PageName(i)), Plain([store[input][i]]))
  {
    if input !in store then Err(Unreadable(input))
    else
      var pieces := Split(store[input]);
      Ok(seq(|pieces|, i requires 0 <= i < |pieces| => Write(join(outputDir, pieces[i].name), pieces[i].doc)))
  }

  /** `password_protect`: the source's pages, encrypted with `password`, written to
      `output`. The empty password is accepted, as `password_protect` does not check it. */
  function ProtectFile<P>(input: string, output: string, password: string, store: Store<P>)
    : (r: Result<seq<Write<P>>, Error>)
    ensures r.Err? <==> input !in store
    ensures r.Err? ==> r.error == Unreadable(input)
    ensures r.Ok? ==> r.value == [Write(output, Protect(store[input], password))]
  {
    if input !in store then Err(Unreadable(input))
    else Ok([Write(output, Protect(store[input], password))])
  }

  /** A name that is not empty and does not start with the path separator, such as
      every PageName. */
  predicate IsRelativeName(name: string) {
    name != [] && name[0] != '/'
  }

  /** When `join` keeps distinct relative names in one directory apart, split
      writes every page to a file of its own. */
  lemma SplitFileTargetsDistinct<P>(input: string, outputDir: string, join: (string, string) -> string,
                                    store: Store<P>, i: nat, j: nat)
    requires forall a, b ::
               (IsRelativeName(a) && IsRelativeName(b) && join(outputDir, a) == join(outputDir, b)) ==> a == b
    requires input in store && i < |store[input]| && j < |store[input]| && i != j
    ensures var r := SplitFile(input, outputDir, join, store);
            r.Ok? && r.value[i].path != r.value[j].path
  {
    PageNameInjective(i, j);
    assert PageName(i)[0] == 'p' && PageName(j)[0] == 'p';
  }
}

=== FILE: menu.dfy ===
/** The interactive front end, `main`: the first line picks the operation, the
    next lines answer that operation's prompts, and the operation runs on them.
    The lines the user types are passed in; each prompt consumes the next one. */
module Menu {
  import opened Results
  import Text
  import opened Assembly
  import opened Engine

  datatype Operation = MergeOp | SplitOp | ProtectOp

  /** The menu choice: exactly "1", "2" or "3" (no surrounding spaces) pick an
      operation; anything else picks none. */
  function Choose(choice: string): (op: Option<Operation>)
    ensures op == Some(MergeOp) <==> choice == "1"
    ensures op == Some(SplitOp) <==> choice == "2"
    ensures op == Some(ProtectOp) <==> choice == "3"
    ensures op == None <==> choice !in {"1", "2", "3"}
  {
    if choice == "1" then Some(MergeOp)
    else if choice == "2" then Some(SplitOp)
    else if choice == "3" then Some(ProtectOp)
    else None
  }

  /** The merge path list: the line split at every comma, each field stripped of
      surrounding whitespace, in left-to-right order. */
  function ParsePaths(line: string): (paths: seq<string>)
    ensures |paths| == Text.Count(line, ',') + 1
    ensures forall k :: 0 <= k < |paths| ==> Text.Trimmed(paths[k]) && ',' !in paths[k]
    ensures forall k :: 0 <= k < |paths| ==> paths[k] == Text.Strip(Text.SplitOn(line, ',')[k])
  {
    var fields := Text.SplitOn(line, ',');
    seq(|fields|, k requires 0 <= k < |fields| => StripField(fields[k]))
  }

  /** Strip one field of the path list; stripping adds no comma. */
  function StripField(field: string): (path: string)
    requires ',' !in field
    ensures path == Text.Strip(field) && ',' !in path
  {
    Text.StripAddsNothing(field, ',');
    Text.Strip(field)
  }

  /** Paths without commas or surrounding whitespace, typed joined by commas with
      any whitespace around each, are read back as exactly those paths. */
  lemma {:induction false} ParsePathsJoin(paths: seq<string>, padded: seq<string>)
    requires |paths| >= 1 && |padded| == |paths|
    requires forall k :: 0 <= k < |paths| ==> Text.Trimmed(paths[k]) && ',' !in paths[k]
    requires forall k :: 0 <= k < |padded| ==>
               exists pre, post :: Text.AllSpace(pre) && Text.AllSpace(post)
                                   && padded[k] == pre + paths[k] + post
    requires forall k :: 0 <= k < |padded| ==> ',' !in padded[k]
    ensures ParsePaths(Text.JoinWith(padded, ',')) == paths
  {
    Text.SplitOnJoin(padded, ',');
    var parsed := ParsePaths(Text.JoinWith(padded, ','));
    forall k | 0 <= k < |paths|
      ensures parsed[k] == paths[k]
    {
      var pre, post :| Text.AllSpace(pre) && Text.AllSpace(post) && padded[k] == pre + paths[k] + post;
      Text.StripUnique(padded[k], pre, paths[k], post);
    }
  }

  /** What the user asked for, once every prompt of the chosen operation is answered. */
  datatype Request =
    | MergeRequest(sources: seq<string>, output: string)
    | SplitRequest(input: string, outputDir: string)
    | ProtectRequest(input: string, output: string, password: string)

  /** The number of prompts each operation asks after the menu choice. */
  function Prompts(op: Operation): nat {
    match op
    case MergeOp => 2
    case SplitOp => 2
    case ProtectOp => 3
  }

  /** Answer the prompts of `op` with the lines in `answers`, in order; input that
      ends early is an error, and lines beyond those the prompts need are unread.
      Only the merge path list is processed; every other answer is taken as typed. */
  function ReadRequest(op: Operation, answers: seq<string>): (r: Result<Request, Error>)
    ensures r.Err? <==> |answers| < Prompts(op)
    ensures r.Err? ==> r.error == EndOfInput
    ensures r.Ok? && op == MergeOp ==> r.value == MergeRequest(ParsePaths(answers[0]), answers[1])
    ensures r.Ok? && op == SplitOp ==> r.value == SplitRequest(answers[0], answers[1])
    ensures r.Ok? && op == ProtectOp ==> r.value == ProtectRequest(answers[0], answers[1], answers[2])
  {
    if |answers| < Prompts(op) then Err(EndOfInput)
    else
      match op
      case MergeOp => Ok(MergeRequest(ParsePaths(answers[0]), answers[1]))
      case SplitOp => Ok(SplitRequest(answers[0], answers[1]))
      case ProtectOp => Ok(ProtectRequest(answers[0], answers[1], answers[2]))
  }

  /** Carry out one request. */
  function Execute<P>(req: Request, join: (string, string) -> string, store: Store<P>)
    : Result<seq<Write<P>>, Error>
  {
    match req
    case MergeRequest(sources, output) => MergeFiles(sources, output, store)
    case SplitRequest(input, outputDir) => SplitFile(input, outputDir, join, store)
    case ProtectRequest(input, output, password) => ProtectFile(input, output, password, store)
  }

  /** How one run of the menu ends. */
  datatype Outcome<P> =
    | InvalidChoice               // no operation chosen; the tool exits
    | Failed(error: Error)        // input ended early, or the chosen operation stopped
    | Completed(writes: seq<Write<P>>)

  /** One run of `main` on the lines the user types: the menu choice, then the
      answers to the chosen operation's prompts. */
  function RunMenu<P>(lines: seq<string>, join: (string, string) -> string, store: Store<P>)
    : (o: Outcome<P>)
    ensures o.InvalidChoice? <==> |lines| >= 1 && Choose(lines[0]).None?
    ensures o.Failed? && o.error == EndOfInput <==>
              || |lines| == 0
              || (Choose(lines[0]).Some? && |lines| - 1 < Prompts(Choose(lines[0]).value))
  {
    if |lines| == 0 then Failed(EndOfInput)
    else
      match Choose(lines[0])
      case None => InvalidChoice
      case Some(op) =>
        match ReadRequest(op, lines[1..])
        case Err(e) => Failed(e)
        case Ok(req) =>
          match Execute(req, join, store)
          case Err(e) => Failed(e)
          case Ok(writes) => Completed(writes)
  }

  /** Choosing merge writes one unencrypted document, to the output name as typed,
      holding the pages of every listed path in order, when all of them can be
      read; otherwise it fails at the first path that cannot be. */
  lemma RunMenuMerge<P>(line: string, output: string, rest: seq<string>,
                        join: (string, string) -> string, store: Store<P>)
    ensures var paths := ParsePaths(line);
            var o := RunMenu(["1", line, output] + rest, join, store);
            && (AllReadable(paths, store) ==> o == Completed([Write(output, Merge(Sources(paths, store)))]))
            && (!AllReadable(paths, store) ==>
                  var k := FirstUnreadable(paths, store);
                  k < |paths| && o == Failed(Unreadable(paths[k])))
  {
    var lines := ["1", line, output] + rest;
    var answers := lines[1..];
    assert lines[0] == "1" && Choose(lines[0]) == Some(MergeOp);
    assert answers == [line, output] + rest;
    assert answers[0] == line && answers[1] == output;
    var req := MergeRequest(ParsePaths(line), output);
    assert ReadRequest(MergeOp, answers) == Ok(req);
    var r := MergeFiles(ParsePaths(line), output, store);
    assert RunMenu(lines, join, store) == (if r.Ok? then Completed(r.value) else Failed(r.error));
  }

  /** Choosing split writes the pages of the source one by one, page i to
      join(dir, PageName(i)), when the source can be read. */
  lemma RunMenuSplit<P>(input: string, outputDir: string, rest: seq<string>,
                        join: (string, string) -> string, store: Store<P>)
    ensures var o := RunMenu(["2", input, outputDir] + rest, join, store);
            && (input in store ==>
                  && o.Completed? && |o.writes| == |store[input]|
                  && forall i :: 0 <= i < |o.writes| ==>
                       o.writes[i] == Write(join(outputDir, PageName(i)), Plain([store[input][i]])))
            && (input !in store ==> o == Failed(Unreadable(input)))
  {
  }

  /** Choosing protect writes the source pages encrypted with the password as typed,
      including the empty one, when the source can be read. */
  lemma RunMenuProtect<P>(input: string, output: string, password: string, rest: seq<string>,
                          join: (string, string) -> string, store: Store<P>)
    ensures var o := RunMenu(["3", input, output, password] + rest, join, store);
            && (input in store ==> o == Completed([Write(output, Protect(store[input], password))]))
            && (input !in store ==> o == Failed(Unreadable(input)))
  {
  }

  /** The path list "a.pdf, b.pdf" names the two files "a.pdf" and "b.pdf". */
  lemma ParsePathsExample()
    ensures ParsePaths("a.pdf, b.pdf") == ["a.pdf", "b.pdf"]
  {
    var padded := ["a.pdf", " b.pdf"];
    assert Text.JoinWith(padded, ',') == "a.pdf, b.pdf";
    assert Text.AllSpace("") && Text.AllSpace(" ");
    assert padded[0] == "" + "a.pdf" + "";
    assert padded[1] == " " + "b.pdf" + "";
    ParsePathsJoin(["a.pdf", "b.pdf"], padded);
  }

  /** Sources of 2 and 3 pages merge into their 5 pages in order. */
  lemma MergeExamplePages<P>(a1: P, a2: P, b1: P, b2: P, b3: P)
    ensures var store := map["a.pdf" := [a1, a2], "b.pdf" := [b1, b2, b3]];
            && AllReadable(["a.pdf", "b.pdf"], store)
            && Merge(Sources(["a.pdf", "b.pdf"], store)).pages == [a1, a2, b1, b2, b3]
  {
    var store := map["a.pdf" := [a1, a2], "b.pdf" := [b1, b2, b3]];
    var paths := ["a.pdf", "b.pdf"];
    assert AllReadable(paths, store);
    var sources := Sources(paths, store);
    assert sources == [[a1, a2], [b1, b2, b3]];
    assert sources[..1] == [[a1, a2]];
    assert [[a1, a2]][..0] == [];
    assert Concat(sources[..1]) == [a1, a2];
    assert Concat(sources) == [a1, a2] + [b1, b2, b3];
  }

  /** Two source files of 2 and 3 pages, typed as "a.pdf, b.pdf", merge into one
      5-page document written to "out" (no extension is added). */
  lemma MergeExample<P>(a1: P, a2: P, b1: P, b2: P, b3: P, join: (string, string) -> string)
    ensures var store := map["a.pdf" := [a1, a2], "b.pdf" := [b1, b2, b3]];
            RunMenu(["1", "a.pdf, b.pdf", "out"], join, store)
              == Completed([Write("out", Plain([a1, a2, b1, b2, b3]))])
  {
    var store := map["a.pdf" := [a1, a2], "b.pdf" := [b1, b2, b3]];
    ParsePathsExample();
    MergeExamplePages(a1, a2, b1, b2, b3);
    RunMenuMerge("a.pdf, b.pdf", "out", [], join, store);
    assert ["1", "a.pdf, b.pdf", "out"] + [] == ["1", "a.pdf, b.pdf", "out"];
  }

  /** A 3-page document splits into page_1.pdf, page_2.pdf and page_3.pdf. */
  lemma SplitExample<P>(p1: P, p2: P, p3: P, join: (string, string) -> string)
    ensures var o := RunMenu(["2", "doc.pdf", "pages"], join, map["doc.pdf" := [p1, p2, p3]]);
            o == Completed([Write(join("pages", "page_1.pdf"), Plain([p1])),
                            Write(join("pages", "page_2.pdf"), Plain([p2])),
                            Write(join("pages", "page_3.pdf"), Plain([p3]))])
  {
    assert Decimal.FromNat(1) == "1" && Decimal.FromNat(2) == "2" && Decimal.FromNat(3) == "3";
    assert PageName(0) == "page_1.pdf" && PageName(1) == "page_2.pdf" && PageName(2) == "page_3.pdf";
    var o := RunMenu(["2", "doc.pdf", "pages"], join, map["doc.pdf" := [p1, p2, p3]]);
    assert o.Completed? && |o.writes| == 3;
    assert o.writes[0] == Write(join("pages", "page_1.pdf"), Plain([p1]));
    assert o.writes[1] == Write(join("pages", "page_2.pdf"), Plain([p2]));
    assert o.writes[2] == Write(join("pages", "page_3.pdf"), Plain([p3]));
  }
}

=== FILE: results.dfy ===
/** The option and result types the rest of the model returns. */
module Results {

  /** A value that may be absent, such as the password of an unencrypted document. */
  datatype Option<+T> = None | Some(value: T)

  /** The outcome of an operation that can fail: a value, or the reason it failed. */
  datatype Result<+T, +E> = Ok(value: T) | Err(error: E)
}

=== FILE: text.dfy ===
/** The two string operations the menu applies to the merge path list: Python's
    `str.split(sep)` with a one-character separator and `str.strip()` with no
    argument. */
module Text {

  /** Python's `str.isspace` for one character: the characters `str.strip()`
      removes when given no argument. */
  predicate IsSpace(c: char) {
    var n := c as int;
    || 0x09 <= n <= 0x0D
    || 0x1C <= n <= 0x20
    || n == 0x85 || n == 0xA0 || n == 0x1680
    || 0x2000 <= n <= 0x200A
    || n == 0x2028 || n == 0x2029 || n == 0x202F || n == 0x205F || n == 0x3000
  }

  predicate AllSpace(s: string) {
    forall k :: 0 <= k < |s| ==> IsSpace(s[k])
  }

  /** Neither begins nor ends with whitespace. */
  predicate Trimmed(s: string) {
    s == [] || (!IsSpace(s[0]) && !IsSpace(s[|s| - 1]))
  }

  /** `s` with its leading whitespace removed. */
  function TrimStart(s: string): (r: string)
    ensures |r| <= |s| && r == s[|s| - |r|..]
    ensures AllSpace(s[..|s| - |r|])
    ensures r == [] || !IsSpace(r[0])
    decreases |s|
  {
    if |s| > 0 && IsSpace(s[0]) then
      var r := TrimStart(s[1..]);
      assert s[..|s| - |r|] == [s[0]] + s[1..][..|s| - 1 - |r|];
      r
    else
      s
  }

  /** `s` with its trailing whitespace removed. */
  function TrimEnd(s: string): (r: string)
    ensures |r| <= |s| && r == s[..|r|]
    ensures AllSpace(s[|r|..])
    ensures r == [] || !IsSpace(r[|r| - 1])
    decreases |s|
  {
    if |s| > 0 && IsSpace(s[|s| - 1]) then
      var r := TrimEnd(s[..|s| - 1]);
      assert s[|r|..] == s[..|s| - 1][|r|..] + [s[|s| - 1]];
      r
    else
      s
  }

  /** Python's `s.strip()`: `s` is the result with whitespace before and after it. */
  function Strip(s: string): (r: string)
    ensures Trimmed(r)
    ensures exists pre, post :: AllSpace(pre) && AllSpace(post) && s == pre + r + post
  {
    var t := TrimStart(s);
    var r := TrimEnd(t);
    Padding(s, t, r);
    r
  }

  /** Cutting a whitespace prefix off `s` leaves `t`, and cutting a whitespace
      suffix off `t` leaves `r`: so `s` is `r` padded with whitespace. */
  lemma Padding(s: string, t: string, r: string)
    requires |t| <= |s| && t == s[|s| - |t|..] && AllSpace(s[..|s| - |t|])
    requires |r| <= |t| && r == t[..|r|] && AllSpace(t[|r|..])
    ensures exists pre, post :: AllSpace(pre) && AllSpace(post) && s == pre + r + post
  {
  }

  /** Stripping removes characters and adds none. */
  lemma StripAddsNothing(s: string, c: char)
    requires c !in s
    ensures c !in Strip(s)
  {
  }

  /** Leading whitespace in front of a part that starts with a non-space is
      exactly what TrimStart removes. */
  lemma {:induction false} TrimStartOfPadded(pre: string, rest: string)
    requires AllSpace(pre)
    requires rest == [] || !IsSpace(rest[0])
    ensures TrimStart(pre + rest) == rest
    decreases |pre|
  {
    if pre == [] {
      assert pre + rest == rest;
    } else {
      assert (pre + rest)[0] == pre[0];
      assert (pre + rest)[1..] == pre[1..] + rest;
      TrimStartOfPadded(pre[1..], rest);
    }
  }

  /** Trailing whitespace after a part that ends with a non-space is exactly what
      TrimEnd removes. */
  lemma {:induction false} TrimEndOfPadded(rest: string, post: string)
    requires AllSpace(post)
    requires rest == [] || !IsSpace(rest[|rest| - 1])
    ensures TrimEnd(rest + post) == rest
    decreases |post|
  {
    if post == [] {
      assert rest + post == rest;
    } else {
      var s := rest + post;
      assert s[|s| - 1] == post[|post| - 1];
      assert s[..|s| - 1] == rest + post[..|post| - 1];
      TrimEndOfPadded(rest, post[..|post| - 1]);
    }
  }

  /** What Strip computes is determined by its contract: any way of writing `s`
      as whitespace, a trimmed middle, and whitespace has Strip(s) as the middle. */
  lemma StripUnique(s: string, pre: string, mid: string, post: string)
    requires AllSpace(pre) && AllSpace(post) && Trimmed(mid)
    requires s == pre + mid + post
    ensures Strip(s) == mid
  {
    if mid == [] {
      assert s == pre + post;
      assert AllSpace(pre + post);
      TrimStartOfPadded(pre + post, []);
      assert pre + post + [] == s;
      TrimEndOfPadded([], []);
    } else {
      TrimStartOfPadded(pre, mid + post);
      assert pre + (mid + post) == s;
      TrimEndOfPadded(mid, post);
    }
  }

  /** The number of occurrences of `c` in `s`. */
  function Count(s: string, c: char): nat
    decreases |s|
  {
    if s == [] then 0 else (if s[0] == c then 1 else 0) + Count(s[1..], c)
  }

  /** Python's `s.split(sep)`: the maximal runs of `s` between occurrences of `sep`,
      from left to right; an empty `s` gives one empty field. */
  function SplitOn(s: string, sep: char): (fields: seq<string>)
    ensures |fields| == Count(s, sep) + 1
    ensures forall k :: 0 <= k < |fields| ==> sep !in fields[k]
    decreases |s|
  {
    if s == [] then
      [[]]
    else
      var rest := SplitOn(s[1..], sep);
      if s[0] == sep then [[]] + rest else [[s[0]] + rest[0]] + rest[1..]
  }

  /** Python's `sep.join(fields)` for a one-character separator. */
  function JoinWith(fields: seq<string>, sep: char): string
    decreases |fields|
  {
    if |fields| == 0 then []
    else if |fields| == 1 then fields[0]
    else fields[0] + [sep] + JoinWith(fields[1..], sep)
  }

  /** Joining the fields of a split with the separator gives back the string. */
  lemma {:induction false} JoinSplitOn(s: string, sep: char)
    ensures JoinWith(SplitOn(s, sep), sep) == s
    decreases |s|
  {
    if s != [] {
      var rest := SplitOn(s[1..], sep);
      JoinSplitOn(s[1..], sep);
      if s[0] == sep {
        assert ([[]] + rest)[1..] == rest;
        assert s == [] + [sep] + s[1..];
      } else {
        var fields := [[s[0]] + rest[0]] + rest[1..];
        if |rest| == 1 {
          assert fields == [[s[0]] + rest[0]];
        } else {
          assert fields[1..] == rest[1..];
          assert JoinWith(rest, sep) == rest[0] + [sep] + JoinWith(rest[1..], sep);
        }
        assert s == [s[0]] + s[1..];
      }
    }
  }

  /** Splitting a string whose first `|p|` characters contain no separator puts
      all of `p` in front of the first field. */
  lemma {:induction false} SplitOnPrefix(p: string, t: string, sep: char)
    requires sep !in p
    ensures var x := SplitOn(t, sep); SplitOn(p + t, sep) == [p + x[0]] + x[1..]
    decreases |p|
  {
    var x := SplitOn(t, sep);
    if p == [] {
      assert p + t == t;
      assert p + x[0] == x[0];
      assert [x[0]] + x[1..] == x;
    } else {
      var q := p[1..];
      SplitOnPrefix(q, t, sep);
      assert (p + t)[0] == p[0];
      assert (p + t)[1..] == q + t;
      assert [p[0]] + (q + x[0]) == p + x[0];
    }
  }

  /** Splitting the join of separator-free fields gives back the fields. */
  lemma {:induction false} SplitOnJoin(fields: seq<string>, sep: char)
    requires |fields| >= 1
    requires forall k :: 0 <= k < |fields| ==> sep !in fields[k]
    ensures SplitOn(JoinWith(fields, sep), sep) == fields
    decreases |fields|
  {
    var p := fields[0];
    if |fields| == 1 {
      SplitOnPrefix(p, [], sep);
      assert p + [] == p;
      assert SplitOn([], sep) == [[]];
      assert JoinWith(fields, sep) == p;
    } else {
      var u := JoinWith(fields[1..], sep);
      SplitOnJoin(fields[1..], sep);
      SplitOnPrefix(p, [sep] + u, sep);
      assert p + [sep] + u == p + ([sep] + u);
      assert ([sep] + u)[0] == sep && ([sep] + u)[1..] == u;
      var x := SplitOn([sep] + u, sep);
      assert x == [[]] + fields[1..];
      assert p + x[0] == p;
      assert x[1..] == fields[1..];
      assert fields == [p] + fields[1..];
    }
  }
}
